=== FILE: README.md ===
# BluePreloader progress and lifecycle model

A Dafny model of the page-loading overlay `BluePreloader` (`preloader.js`):
the simulated progress tick `updateProgress`, the staged status labels, the
image-count blend `updateRealProgress`, the 15 s watchdog, the completion
sequence `completeLoading` with its two chained timers, the public
`setProgress` / `setStatus` / `forceComplete` calls, and the counter of the
"Loading" typewriter effect.

The instance is an immutable `Controller.State` record. Each callback or
public method is a pure function on it. DOM writes become fields:
- status text, percentage text and bar width are `Option` fields;
- the fade-out class, the body `loading` class and "node attached" are booleans;
- dispatching `preloaderComplete` increments an event counter.

Scheduling `setTimeout` is modelled by a "pending" flag. `Math.random()` is
an argument `r` with `0 <= r < 1`. JavaScript numbers are idealised as Dafny
`real`s, and `Math.floor` as `.Floor`.

`Lifecycle` turns the callbacks into events. A run is a sequence of events.
An event whose timer is not pending, or whose listener has nothing left to
report, does not fire.

Modules:
- `Options`: the optional-value datatype.
- `Stages`: the stage table and first-match lookup.
- `Typewriter`: the typeEffect counter.
- `Controller`: the state, its invariant `Valid`, and every callback.
- `Lifecycle`: events, runs, and the facts that hold over runs.
- `TickLoop`: termination of the tick loop.

Behaviours of the code the model keeps:
- Progress is not monotone over every run. `setProgress` may lower it. A tick may
  carry it past 100, for example 99.9 + 0.5. After that, `forceComplete` or the
  watchdog resets it to exactly 100. Monotonicity is therefore proved only for
  runs of ticks, image events and events that leave progress alone
  (`Lifecycle.RaisingRunMonotone`).
- The lifecycle has four phases: Loading, Complete, FadedOut, Removed. The
  fade timer and the removal timer are separate steps.
- The typewriter index reaches 8 (`"Loading".length + 1`). After the
  firing that writes the whole word, `i++` makes it 8. The next firing
  resets it to 0 without writing anything.

## Model

| member | source | states |
|---|---|---|
| Stages.Find | preloader.js:84-86 | the result is the first stage, in table order, whose inclusive range contains p; None exactly when no stage contains p |
| Stages.StageText | preloader.js:84-89 | a label is found exactly when 0 <= p <= 100, and on that range it is the label of the band of p, which is the first matching stage |
| Stages.FindIsBand | preloader.js:6-13 | on [0,100] the first-match lookup equals the independent band cascade (<=15, <=40, <=60, <=80, <=95, else); outside it nothing matches |
| Stages.SharedBoundaryPicksEarlier | preloader.js:6-13 | each shared boundary 15, 40, 60, 80, 95 lies in two stages and selects the earlier one |
| Stages.BoundaryExamples | preloader.js:7-12 | 15 reads "Initializing..." and 100 reads "Almost ready..." |
| Stages.StageMonotone | preloader.js:84-86 | for 0 <= p <= q <= 100 the stage found for p is not later in the table than the one for q |
| Typewriter.TypeStep | preloader.js:202-208 | below or at the word length the index advances and a prefix of that length is shown; past it the index resets to 0 and the text is kept; the index stays in 0..8 and the text is a prefix of "Loading" |
| Typewriter.Steps | preloader.js:202-211 | any number of firings keeps the index in 0..8 and the shown text a prefix of "Loading" |
| Typewriter.Typing | preloader.js:199-208 | n firings within the word leave index i + n and show the prefix of length i + n - 1 |
| Typewriter.FullCycle | preloader.js:199-208 | 9 firings from index 0 return to index 0 with the whole word shown: the effect is periodic |
| Controller.Initial | preloader.js:3-48 | the starting instance has progress 0, is not complete, is in the Loading phase with the body marked loading, and satisfies the invariant |
| Controller.Increment | preloader.js:101-111 | every increment lies in [0.1, 3); per band it lies in [1,3), [0.5,2), [0.3,1.3) or [0.1,0.6) |
| Controller.DrawRoundTrip | preloader.js:102-111 | within a band the random draw can be recovered from the increment, so the band formula is an exact affine map of r |
| Controller.CompleteLoading | preloader.js:167-174 | always leaves isComplete set with progress unchanged; a second call changes nothing; the first shows "Complete!" (when the element exists) and enters the Complete phase without dispatching; no other field changes, so the last percentage and bar stay on display |
| Controller.TickStatus | preloader.js:83-90 | with the status element and 0 <= p <= 100 the label shown is that of the band of p; without the element the text is kept |
| Controller.Advance | preloader.js:92-115 | a non-terminal tick adds exactly the band increment for the draw (at least 0.1 and less than 3), shows floor of the old value, the old value as bar width and the old value's stage, and reschedules; nothing else changes |
| Controller.Tick | preloader.js:77-116 | at progress >= 100 or when complete: the result is completeLoading's (Complete phase and "Complete!" on a first completion), progress unchanged, no further tick (and nothing else changes if already complete); otherwise the Advance facts, including that no other field changes; the invariant is preserved |
| Controller.FadeOut | preloader.js:177-183 | the first completion timer adds the fade-out class when the node exists, removes the body loading class and enters FadedOut without dispatching; nothing else changes |
| Controller.RemoveNode | preloader.js:185-192 | the second completion timer detaches the node and dispatches exactly one preloaderComplete event; on a valid state the total becomes exactly 1; nothing else changes |
| Controller.CountComplete | preloader.js:135-138 | the startup count equals the number of already-complete images |
| Controller.TrackRealLoading | preloader.js:126-148 | the counter starts with total = image count, loaded = complete images, one outstanding listener per incomplete image; nothing else, progress included, changes |
| Controller.UpdateRealProgress | preloader.js:160-165 | with total > 0 progress becomes max(old, 100*loaded/total), so it never decreases; with total = 0 the state is unchanged; nothing but progress changes |
| Controller.FractionBounds | preloader.js:161-163 | with 0 < loaded <= total the blended percentage lies in (0, 100], and is exactly 100 when every image has resolved |
| Controller.AssetResolved | preloader.js:139-146 | a load or error listener counts one image and then blends on every event: progress becomes max(old, 100*(loaded+1)/total), as UpdateRealProgress characterises it; so progress never decreases, never exceeds 100 when it was at most 100, and the last outstanding image brings it to at least 100; only the counter and progress change |
| Controller.PageLoad | preloader.js:151-157 | the window load listener schedules the watchdog and touches nothing else |
| Controller.Watchdog | preloader.js:152-156 | progress becomes exactly 100 when not complete; otherwise progress is unchanged; completion is never triggered or undone; only progress and the timer flag change |
| Controller.TypeTick | preloader.js:202-212 | one typeEffect firing advances the counter and reschedules exactly when not yet complete; nothing else changes |
| Controller.SetupTypewriter | preloader.js:196-216 | without the loading-text element nothing changes; otherwise exactly the first typeEffect runs: the counter advances and a firing is pending unless complete |
| Controller.ForceComplete | preloader.js:239-242 | always leaves progress 100 and isComplete set, without dispatching directly; when already complete only progress changes; on a first call it enters the Complete phase and shows "Complete!" when the element exists, and otherwise only progress, isComplete, the status and the phase change |
| Controller.SetProgress | preloader.js:245-257 | for 0 <= v <= 100 progress becomes exactly v, even downwards, and the display shows floor(v)% and width v%, with nothing else changed; outside that range the state is unchanged |
| Controller.SetStatus | preloader.js:260-264 | with the status element the text becomes the given string; nothing else ever changes |
| Controller.Start | preloader.js:28-36 | after DOMContentLoaded the instance is valid, loading and not complete, with no page load, watchdog or completion event yet; exactly one tick has run from 0: progress is the first-band increment for the draw, and the display shows "Initializing...", 0% and bar width 0 where those elements exist; a tick is pending; the counter holds the complete images, the image total and one outstanding listener per incomplete image; the typewriter runs exactly when its element exists |
| Controller.SetProgressExamples | preloader.js:245-257 | setProgress(42) shows 42%, setProgress(42.5) shows 42%, -5 and 150 are ignored |
| Controller.BlendExamples | preloader.js:160-165 | blending 2 of 4 from progress 10 gives 50; from 60 it stays 60; total 0 is a no-op |
| Lifecycle.Step | preloader.js:77-264 | an event that cannot fire changes nothing; every step preserves the invariant and the set of elements |
| Lifecycle.Run | preloader.js:77-264 | every run preserves the invariant and the set of elements |
| Lifecycle.LoadEqualsError | preloader.js:139-146 | an image's load event and error event produce identical states, each counting one image |
| Lifecycle.StepFacts | preloader.js:77-194 | a raising step never lowers progress; isComplete never reverts; the phase advances by at most one; the event count grows only on the removal timer from FadedOut |
| Lifecycle.RaisingRunMonotone | preloader.js:113-165 | over a run without watchdog, setProgress or forceComplete, progress never decreases |
| Lifecycle.RunLifecycle | preloader.js:167-194 | over any run completion is one-way, the phase never goes back, at most one completion event is dispatched, and when it is the fade-out and body unmarking have happened and the node is gone |
| Lifecycle.RepeatedCompletion | preloader.js:239-242 | any number of forceComplete calls after completion began leave the phase and the event count unchanged |
| Lifecycle.TeardownInOrder | preloader.js:177-193 | from Complete the removal timer cannot fire first; fade-out then removal yields FadedOut, then Removed with exactly one event |
| Lifecycle.WatchdogOnlyBeforeCompletion | preloader.js:151-157 | once complete the watchdog only consumes its timer; before, it sets progress to 100 |
| TickLoop.RunTicks | preloader.js:113-115 | a sequence of ticks never lowers progress and preserves the invariant |
| TickLoop.StagesInOrder | preloader.js:84-113 | across consecutive non-terminal ticks the stage shown never moves back in the table |
| TickLoop.StopsWithin | preloader.js:77-115 | within n tenths of 100, n + 1 firings stop the loop and begin completion |
| TickLoop.LoopTerminates | preloader.js:77-115 | from any progress >= 0, 1001 firings with any draws stop the loop and begin completion |

## Left out

- DOM lookup and the browser's class and node effects (`setupElements`, `classList`, `remove`): these are boolean fields, and a missing element is a false flag in `Elements`.
- Particle creation (`createParticles`): random CSS styling with no behaviour to state.
- Mouse-parallax handlers (`setupInteractions`): floating-point view math that produces CSS strings.
- Timer delays (150, 300, 500, 600 and 15000 ms): timers are pending flags, and any enabled event may fire next. Only causal order is kept: a timer fires after it is scheduled, and removal follows fade-out. The real-time order of the timers is not modelled (the 15 s watchdog may fire before a 150 ms tick). This over-approximation is sound for the safety facts proved.
- `Math.random`: it is the argument `r` in [0, 1).
- `CustomEvent` and the `console.log` listener: the dispatch is the counter `completeEvents`.
- The commented-out alternative initialiser: it is dead code.
- The global singleton and `window.BluePreloader`: the model has one explicit instance.
- Public calls made before `DOMContentLoaded`: the model starts at `Controller.Start`, so the constructor-to-ready window is not represented.
- JavaScript number semantics: rounding, NaN and non-numeric arguments to `setProgress` are not modelled, because numbers are exact reals.
- The `document.styleSheets` read in `trackRealLoading`: its value is never used.
- AssetResolved: assumes each incomplete image reports once, by load or by error. In the source both listeners stay registered and share one counter, so an image that fires again (an error followed by a load after a fallback src swap) is counted again and can push the blend above 100; the model's `unresolved` counter and its "never exceeds 100" clause rely on the once-per-image assumption.

=== FILE: controller.dfy ===
/** The state of one BluePreloader instance and the bodies of its callbacks
    and public methods (preloader.js). Timers become "pending" flags, browser
    events become function calls, Math.random becomes a draw r in [0, 1),
    and the DOM effects become fields of the state. */
module Controller {
  import opened Options
  import opened Stages
  import Typewriter

  /** Which of the looked-up DOM elements exist (a null lookup disables the
      writes guarded on that element). */
  datatype Elements = Elements(
    preloader: bool,
    percentage: bool,
    progressBar: bool,
    statusText: bool,
    loadingText: bool)

  /** The completion lifecycle. Complete: isComplete is set and the 500 ms
      fade timer is pending. FadedOut: the fade-out class is applied and the
      600 ms removal timer is pending. Removed: the node is detached and the
      completion event has been dispatched. */
  datatype Phase = Loading | Complete | FadedOut | Removed

  /** The image counter shared by the load/error listeners: images resolved
      so far, images counted at startup, and images whose listener has not
      fired yet. */
  datatype Assets = Assets(loaded: nat, total: nat, unresolved: nat)

  datatype State = State(
    els: Elements,
    progress: real,
    isComplete: bool,
    status: Option<string>,      // status-text content written by the controller
    percentText: Option<int>,    // n when the percentage element reads "n%"
    barWidth: Option<real>,      // w when the bar's style width is "w%"
    phase: Phase,
    fadeOut: bool,               // preloader carries the fade-out class
    bodyLoading: bool,           // body carries the loading class
    inDom: bool,                 // preloader node still attached
    completeEvents: nat,         // preloaderComplete events dispatched
    tickPending: bool,           // an updateProgress timer is scheduled
    assets: Assets,
    pageLoaded: bool,            // the window load event has fired
    watchdogPending: bool,       // the 15 s fallback timer is scheduled
    typer: Typewriter.Typer,
    typePending: bool)           // a typeEffect timer is scheduled

  const CompleteText: string := "Complete!"

  /** The invariant every reachable state keeps. */
  predicate Valid(s: State) {
    && s.progress >= 0.0
    && (s.isComplete <==> s.phase != Loading)
    && s.completeEvents == (if s.phase == Removed then 1 else 0)
    && (s.fadeOut <==> s.els.preloader && (s.phase == FadedOut || s.phase == Removed))
    && (s.bodyLoading <==> (s.phase == Loading || s.phase == Complete))
    && (s.inDom <==> s.els.preloader && s.phase != Removed)
    && s.assets.loaded + s.assets.unresolved == s.assets.total
    && (s.percentText.Some? ==> 0 <= s.percentText.value <= 100)
    && (s.watchdogPending ==> s.pageLoaded)
    && Typewriter.Valid(s.typer)
    && (s.typePending ==> s.els.loadingText)
  }

  /** Rank of a phase in lifecycle order. */
  function Rank(p: Phase): nat {
    match p
    case Loading => 0
    case Complete => 1
    case FadedOut => 2
    case Removed => 3
  }

  /** The instance right after setupElements: progress 0, not complete,
      body marked loading, nothing scheduled yet. */
  function Initial(els: Elements): (s: State)
    ensures Valid(s) && s.phase == Loading && s.progress == 0.0 && s.bodyLoading
  {
    State(els, 0.0, false, None, None, None, Loading, false, true, els.preloader, 0,
          false, Assets(0, 0, 0), false, false, Typewriter.Fresh, false)
  }

  // ---------------------------------------------------------------- ticks

  /** The random increment of one non-terminal tick, by progress band. */
  function Increment(p: real, r: real): (inc: real)
    requires 0.0 <= r < 1.0
    ensures 0.1 <= inc < 3.0
    ensures p < 30.0 ==> 1.0 <= inc < 3.0
    ensures 30.0 <= p < 70.0 ==> 0.5 <= inc < 2.0
    ensures 70.0 <= p < 95.0 ==> 0.3 <= inc < 1.3
    ensures 95.0 <= p ==> 0.1 <= inc < 0.6
  {
    if p < 30.0 then r * 2.0 + 1.0
    else if p < 70.0 then r * 1.5 + 0.5
    else if p < 95.0 then r * 1.0 + 0.3
    else r * 0.5 + 0.1
  }

  /** Recovers the random draw from an increment in the band of p. */
  function Draw(p: real, inc: real): real {
    if p < 30.0 then (inc - 1.0) / 2.0
    else if p < 70.0 then (inc - 0.5) / 1.5
    else if p < 95.0 then inc - 0.3
    else (inc - 0.1) / 0.5
  }

  /** Within a band the increment is an exact affine image of the draw: the
      draw can be read back from it, so distinct draws give distinct steps. */
  lemma DrawRoundTrip(p: real, r: real)
    requires 0.0 <= r < 1.0
    ensures Draw(p, Increment(p, r)) == r
  {
  }

  predicate TickIsTerminal(s: State) {
    s.progress >= 100.0 || s.isComplete
  }

  /** completeLoading: idempotent; the first call sets isComplete, shows
      "Complete!" and schedules the fade timer. */
  function CompleteLoading(s: State): (t: State)
    ensures t.isComplete && t.progress == s.progress
    ensures s.isComplete ==> t == s
    ensures !s.isComplete && s.phase == Loading ==>
      && t.phase == Complete
      && t.status == (if s.els.statusText then Some(CompleteText) else s.status)
      && t.completeEvents == s.completeEvents
      && t.tickPending == s.tickPending && t.typePending == s.typePending
    ensures t == s.(isComplete := t.isComplete, status := t.status, phase := t.phase)
    ensures Valid(s) ==> Valid(t) && t.completeEvents == s.completeEvents
  {
    if s.isComplete then s
    else s.(isComplete := true,
             status := if s.els.statusText then Some(CompleteText) else s.status,
             phase := Complete)
  }

  /** The status label a non-terminal tick leaves on display. */
  function TickStatus(s: State): (st: Option<string>)
    ensures s.els.statusText && 0.0 <= s.progress <= 100.0 ==>
      st == Some(LoadingStages[BandIndex(s.progress)].text)
    ensures !s.els.statusText ==> st == s.status
  {
    FindIsBand(s.progress);
    match StageText(s.progress)
    case Some(text) => if s.els.statusText then Some(text) else s.status
    case None => s.status
  }

  /** The non-terminal half of updateProgress: show stage, floor percentage
      and bar width of the current value, add the increment, reschedule. */
  function Advance(s: State, r: real): (t: State)
    requires 0.0 <= r < 1.0
    requires !TickIsTerminal(s)
    ensures t.progress == s.progress + Increment(s.progress, r)
    ensures 0.1 <= t.progress - s.progress < 3.0
    ensures t.tickPending && !t.isComplete && t.phase == s.phase
    ensures s.els.percentage ==> t.percentText == Some(s.progress.Floor)
    ensures s.els.progressBar ==> t.barWidth == Some(s.progress)
    ensures s.els.statusText && 0.0 <= s.progress ==>
      t.status == Some(LoadingStages[BandIndex(s.progress)].text)
    ensures t.completeEvents == s.completeEvents
    ensures t == s.(status := t.status, percentText := t.percentText, barWidth := t.barWidth,
                    progress := t.progress, tickPending := true)
    ensures Valid(s) ==> Valid(t)
  {
    var shown := s.progress.Floor;
    assert 0.0 <= s.progress ==> 0 <= shown <= 100;
    s.(status := TickStatus(s),
       percentText := if s.els.percentage then Some(shown) else s.percentText,
       barWidth := if s.els.progressBar then Some(s.progress) else s.barWidth,
       progress := s.progress + Increment(s.progress, r),
       tickPending := true)
  }

  /** updateProgress: one firing of the self-rescheduling tick. */
  function Tick(s: State, r: real): (t: State)
    requires 0.0 <= r < 1.0
    // terminal: hand off to completion, progress untouched, loop stops
    ensures TickIsTerminal(s) ==>
      && t == CompleteLoading(s).(tickPending := false)
      && t.isComplete && !t.tickPending && t.progress == s.progress
      && t.completeEvents == s.completeEvents
      && (s.isComplete ==> t == s.(tickPending := false))
    // non-terminal: show stage/percentage/bar of the current value, then advance
    ensures !TickIsTerminal(s) ==>
      && t.progress == s.progress + Increment(s.progress, r)
      && 0.1 <= t.progress - s.progress < 3.0
      && t.tickPending && !t.isComplete && t.phase == s.phase
      && (s.els.percentage ==> t.percentText == Some(s.progress.Floor))
      && (s.els.progressBar ==> t.barWidth == Some(s.progress))
      && (s.els.statusText && 0.0 <= s.progress ==>
            t.status == Some(LoadingStages[BandIndex(s.progress)].text))
      && t.completeEvents == s.completeEvents
      && t == s.(status := t.status, percentText := t.percentText, barWidth := t.barWidth,
                 progress := t.progress, tickPending := true)
    ensures Valid(s) ==> Valid(t)
  {
    if TickIsTerminal(s) then CompleteLoading(s).(tickPending := false)
    else Advance(s, r)
  }

  // ---------------------------------------------------------------- completion timers

  /** The 500 ms callback of completeLoading: fade the overlay, unmark the
      body, schedule the removal. */
  function FadeOut(s: State): (t: State)
    requires s.phase == Complete
    ensures t.phase == FadedOut && !t.bodyLoading && t.fadeOut == s.els.preloader
    ensures t == s.(fadeOut := t.fadeOut, bodyLoading := false, phase := FadedOut)
    ensures t.completeEvents == s.completeEvents && t.progress == s.progress
    ensures Valid(s) ==> Valid(t)
  {
    s.(fadeOut := s.els.preloader, bodyLoading := false, phase := FadedOut)
  }

  /** The nested 600 ms callback: detach the node if attached and dispatch
      preloaderComplete. */
  function RemoveNode(s: State): (t: State)
    requires s.phase == FadedOut
    ensures t.phase == Removed && !t.inDom
    ensures t == s.(inDom := false, completeEvents := t.completeEvents, phase := Removed)
    ensures t.completeEvents == s.completeEvents + 1
    ensures t.fadeOut == s.fadeOut && t.bodyLoading == s.bodyLoading && t.progress == s.progress
    ensures Valid(s) ==> Valid(t) && t.completeEvents == 1
  {
    s.(inDom := false,
       completeEvents := s.completeEvents + 1,
       phase := Removed)
  }

  // ---------------------------------------------------------------- real loading

  /** The number of images already complete when tracking starts. */
  function CountComplete(images: seq<bool>): (n: nat)
    ensures n <= |images|
    ensures n == multiset(images)[true]
  {
    if |images| == 0 then 0
    else
      assert images == [images[0]] + images[1..];
      (if images[0] then 1 else 0) + CountComplete(images[1..])
  }

  /** trackRealLoading: count the images (true = already complete), register
      one listener pair per incomplete image, register the window load
      listener. Progress is not blended here. */
  function TrackRealLoading(s: State, images: seq<bool>): (t: State)
    ensures t.assets.total == |images|
    ensures t.assets.loaded == multiset(images)[true]
    ensures t.assets.unresolved == multiset(images)[false]
    ensures t == s.(assets := t.assets)
    ensures Valid(s) ==> Valid(t)
  {
    var done := CountComplete(images);
    assert multiset(images)[true] + multiset(images)[false] == |images| by {
      CountSplit(images);
    }
    s.(assets := Assets(done, |images|, |images| - done))
  }

  lemma {:induction false} CountSplit(images: seq<bool>)
    ensures multiset(images)[true] + multiset(images)[false] == |images|
  {
    if |images| > 0 {
      assert images == [images[0]] + images[1..];
      assert multiset(images) == multiset([images[0]]) + multiset(images[1..]);
      CountSplit(images[1..]);
      if images[0] {
        assert multiset([images[0]])[true] == 1 && multiset([images[0]])[false] == 0;
      } else {
        assert multiset([images[0]])[true] == 0 && multiset([images[0]])[false] == 1;
      }
    }
  }

  /** updateRealProgress: raise progress to the resolved fraction of the
      images, when there are any. */
  function UpdateRealProgress(s: State, loaded: nat, total: nat): (t: State)
    ensures total == 0 ==> t == s
    ensures total > 0 ==> t.progress >= s.progress && t.progress >= 100.0 * (loaded as real) / (total as real)
    ensures total > 0 ==> (t.progress == s.progress || t.progress == 100.0 * (loaded as real) / (total as real))
    ensures t == s.(progress := t.progress)
  {
    if total > 0 then
      var realProgress := (loaded as real / total as real) * 100.0;
      s.(progress := if s.progress >= realProgress then s.progress else realProgress)
    else s
  }

  /** The resolved share of the images, as a percentage, lies in [0, 100]
      and is 100 exactly when every image has resolved. */
  lemma FractionBounds(loaded: nat, total: nat)
    requires 0 < loaded <= total
    ensures 0.0 < 100.0 * (loaded as real) / (total as real) <= 100.0
    ensures loaded == total ==> 100.0 * (loaded as real) / (total as real) == 100.0
  {
    var l, t := loaded as real, total as real;
    assert l / t <= 1.0 by {
      assert l <= t;
    }
    assert 100.0 * l / t == 100.0 * (l / t);
  }

  /** The body shared by an image's load and error listeners. */
  function AssetResolved(s: State): (t: State)
    requires s.assets.unresolved > 0
    ensures t.assets == Assets(s.assets.loaded + 1, s.assets.total, s.assets.unresolved - 1)
    ensures t.progress >= s.progress
    ensures Valid(s) && s.progress <= 100.0 ==> t.progress <= 100.0
    ensures Valid(s) && s.assets.unresolved == 1 ==> t.progress >= 100.0
    ensures t == s.(assets := t.assets, progress := t.progress)
    ensures t.progress == UpdateRealProgress(s, s.assets.loaded + 1, s.assets.total).progress
    ensures Valid(s) ==> Valid(t)
  {
    var counted := s.(assets := Assets(s.assets.loaded + 1, s.assets.total, s.assets.unresolved - 1));
    if counted.assets.loaded <= counted.assets.total then
      FractionBounds(counted.assets.loaded, counted.assets.total);
      UpdateRealProgress(counted, counted.assets.loaded, counted.assets.total)
    else
      UpdateRealProgress(counted, counted.assets.loaded, counted.assets.total)
  }

  /** The window load listener: schedule the watchdog. */
  function PageLoad(s: State): (t: State)
    ensures t == s.(pageLoaded := true, watchdogPending := true)
    ensures Valid(s) ==> Valid(t)
  {
    s.(pageLoaded := true, watchdogPending := true)
  }

  /** The 15 s fallback: jump to 100 unless completion already began. */
  function Watchdog(s: State): (t: State)
    requires s.watchdogPending
    ensures !t.watchdogPending
    ensures !s.isComplete ==> t.progress == 100.0
    ensures s.isComplete ==> t.progress == s.progress
    ensures t.isComplete == s.isComplete && t.phase == s.phase
    ensures t == s.(progress := t.progress, watchdogPending := false)
    ensures Valid(s) ==> Valid(t)
  {
    s.(progress := if !s.isComplete then 100.0 else s.progress, watchdogPending := false)
  }

  // ---------------------------------------------------------------- typewriter

  /** One firing of typeEffect; it reschedules itself only while loading. */
  function TypeTick(s: State): (t: State)
    ensures t.typer == Typewriter.TypeStep(s.typer)
    ensures t.typePending <==> !s.isComplete
    ensures t == s.(typer := t.typer, typePending := t.typePending)
    ensures Valid(s) && s.els.loadingText ==> Valid(t)
  {
    s.(typer := Typewriter.TypeStep(s.typer), typePending := !s.isComplete)
  }

  /** setupTypewriter: without the loading-text element nothing starts. */
  function SetupTypewriter(s: State): (t: State)
    ensures !s.els.loadingText ==> t == s
    ensures s.els.loadingText ==>
      t == s.(typer := Typewriter.TypeStep(s.typer), typePending := !s.isComplete)
    ensures Valid(s) ==> Valid(t)
  {
    if !s.els.loadingText then s else TypeTick(s)
  }

  // ---------------------------------------------------------------- public API

  /** forceComplete: progress 100, then completion. */
  function ForceComplete(s: State): (t: State)
    ensures t.progress == 100.0 && t.isComplete
    ensures t.completeEvents == s.completeEvents
    ensures s.isComplete ==> t == s.(progress := 100.0)
    ensures t == s.(progress := 100.0, isComplete := true, status := t.status, phase := t.phase)
    ensures !s.isComplete ==>
      t.phase == Complete && t.status == (if s.els.statusText then Some(CompleteText) else s.status)
    ensures Valid(s) ==> Valid(t)
  {
    CompleteLoading(s.(progress := 100.0))
  }

  /** setProgress: in-range values are taken as they are, even downwards;
      anything else is ignored. */
  function SetProgress(s: State, v: real): (t: State)
    ensures 0.0 <= v <= 100.0 ==>
      && t.progress == v
      && (s.els.percentage ==> t.percentText == Some(v.Floor))
      && (s.els.progressBar ==> t.barWidth == Some(v))
      && t == s.(progress := v, percentText := t.percentText, barWidth := t.barWidth)
    ensures !(0.0 <= v <= 100.0) ==> t == s
    ensures Valid(s) ==> Valid(t)
  {
    if 0.0 <= v <= 100.0 then
      s.(progress := v,
         percentText := if s.els.percentage then Some(v.Floor) else s.percentText,
         barWidth := if s.els.progressBar then Some(v) else s.barWidth)
    else s
  }

  /** setStatus: overwrite the status text when the element exists. */
  function SetStatus(s: State, text: string): (t: State)
    ensures s.els.statusText ==> t.status == Some(text)
    ensures t == s.(status := t.status)
    ensures !s.els.statusText ==> t == s
  {
    if s.els.statusText then s.(status := Some(text)) else s
  }

  // ---------------------------------------------------------------- startup

  /** The DOMContentLoaded handler: setupElements, startLoading (one tick at
      progress 0, then trackRealLoading), setupTypewriter. */
  function Start(els: Elements, r: real, images: seq<bool>): (s: State)
    requires 0.0 <= r < 1.0
    ensures Valid(s)
    ensures s.phase == Loading && s.tickPending && s.bodyLoading
    ensures 1.0 <= s.progress < 3.0
    ensures s.progress == Increment(0.0, r)
    ensures !s.isComplete && !s.pageLoaded && !s.watchdogPending && s.completeEvents == 0
    ensures els.statusText ==> s.status == Some("Initializing...")
    ensures els.percentage ==> s.percentText == Some(0)
    ensures els.progressBar ==> s.barWidth == Some(0.0)
    ensures s.assets == Assets(multiset(images)[true], |images|, multiset(images)[false])
    ensures s.typePending <==> els.loadingText
  {
    SetupTypewriter(TrackRealLoading(Tick(Initial(els), r), images))
  }

  // ---------------------------------------------------------------- examples

  /** setProgress(42) shows "42%"; -5 and 150 are ignored. */
  lemma SetProgressExamples(s: State)
    requires s.els.percentage
    ensures SetProgress(s, 42.0).progress == 42.0 && SetProgress(s, 42.0).percentText == Some(42)
    ensures SetProgress(s, 42.5).percentText == Some(42)
    ensures SetProgress(s, -5.0) == s && SetProgress(s, 150.0) == s
  {
  }

  /** Blending 2 of 4 images from progress 10 gives 50; a total of 0 does
      nothing. */
  lemma BlendExamples(s: State)
    ensures UpdateRealProgress(s.(progress := 10.0), 2, 4).progress == 50.0
    ensures UpdateRealProgress(s.(progress := 60.0), 2, 4).progress == 60.0
    ensures UpdateRealProgress(s, 1, 0) == s
  {
  }
}

=== FILE: lifecycle.dfy ===
/** The preloader as an event-driven system: every callback that can fire
    (a pending timer, a registered listener, a public call) is an event,
    and a run is a sequence of them executed one after another. */
module Lifecycle {
  import opened Controller

  datatype Event =
    | TickFired(r: real)      // the updateProgress timer
    | ImageLoaded             // an image's load listener
    | ImageFailed             // an image's error listener
    | WindowLoaded            // the window load listener
    | WatchdogFired           // the 15 s fallback timer
    | FadeTimerFired          // the 500 ms completion timer
    | RemoveTimerFired        // the 600 ms completion timer
    | TypeTimerFired          // the typeEffect timer
    | SetProgressCalled(v: real)
    | SetStatusCalled(text: string)
    | ForceCompleteCalled

  /** Whether the event can happen now: its timer is pending or its listener
      still has something to report. Public calls can always happen. */
  predicate Enabled(s: State, e: Event) {
    match e
    case TickFired(r) => s.tickPending && 0.0 <= r < 1.0
    case ImageLoaded => s.assets.unresolved > 0
    case ImageFailed => s.assets.unresolved > 0
    case WindowLoaded => !s.pageLoaded
    case WatchdogFired => s.watchdogPending
    case FadeTimerFired => s.phase == Complete
    case RemoveTimerFired => s.phase == FadedOut
    case TypeTimerFired => s.typePending
    case _ => true
  }

  /** Runs the callback of an enabled event; an event that cannot fire
      leaves the state as it is. */
  function Step(s: State, e: Event): (t: State)
    ensures !Enabled(s, e) ==> t == s
    ensures t.els == s.els
    ensures Valid(s) ==> Valid(t)
  {
    if !Enabled(s, e) then s
    else match e
      case TickFired(r) => Tick(s, r)
      case ImageLoaded => AssetResolved(s)
      case ImageFailed => AssetResolved(s)
      case WindowLoaded => PageLoad(s)
      case WatchdogFired => Watchdog(s)
      case FadeTimerFired => FadeOut(s)
      case RemoveTimerFired => RemoveNode(s)
      case TypeTimerFired => TypeTick(s)
      case SetProgressCalled(v) => SetProgress(s, v)
      case SetStatusCalled(text) => SetStatus(s, text)
      case ForceCompleteCalled => ForceComplete(s)
  }

  function Run(s: State, es: seq<Event>): (t: State)
    ensures t.els == s.els
    ensures Valid(s) ==> Valid(t)
    decreases |es|
  {
    if |es| == 0 then s else Run(Step(s, es[0]), es[1..])
  }

  /** The events under which progress only grows: ticks, image listeners
      and everything that does not touch progress. */
  predicate Raising(e: Event) {
    !(e.WatchdogFired? || e.SetProgressCalled? || e.ForceCompleteCalled?)
  }

  /** A load and an error of an image change the state identically. */
  lemma LoadEqualsError(s: State)
    ensures Step(s, ImageLoaded) == Step(s, ImageFailed)
    ensures s.assets.unresolved > 0 ==>
      Step(s, ImageLoaded).assets.loaded == s.assets.loaded + 1
  {
  }

  /** One step: progress does not fall under a raising event, completion is
      one-way, the phase advances by at most one rank, and the completion
      event count grows only on the removal step. */
  lemma StepFacts(s: State, e: Event)
    requires Valid(s)
    ensures Raising(e) ==> Step(s, e).progress >= s.progress
    ensures s.isComplete ==> Step(s, e).isComplete
    ensures Rank(s.phase) <= Rank(Step(s, e).phase) <= Rank(s.phase) + 1
    ensures Step(s, e).completeEvents > s.completeEvents ==>
      e == RemoveTimerFired && s.phase == FadedOut
  {
    var t := Step(s, e);
    if Enabled(s, e) {
      match e
      case TickFired(r) => assert t == Tick(s, r);
      case ImageLoaded => assert t == AssetResolved(s);
      case ImageFailed => assert t == AssetResolved(s);
      case WindowLoaded => assert t == PageLoad(s);
      case WatchdogFired => assert t == Watchdog(s);
      case FadeTimerFired => assert t == FadeOut(s);
      case RemoveTimerFired => assert t == RemoveNode(s);
      case TypeTimerFired => assert t == TypeTick(s);
      case SetProgressCalled(v) => assert t == SetProgress(s, v);
      case SetStatusCalled(text) => assert t == SetStatus(s, text);
      case ForceCompleteCalled => assert t == ForceComplete(s);
    }
  }

  /** Over any run made of raising events, progress never decreases. */
  lemma {:induction false} RaisingRunMonotone(s: State, es: seq<Event>)
    requires Valid(s)
    requires forall i :: 0 <= i < |es| ==> Raising(es[i])
    ensures Run(s, es).progress >= s.progress
    decreases |es|
  {
    if |es| > 0 {
      StepFacts(s, es[0]);
      RaisingRunMonotone(Step(s, es[0]), es[1..]);
    }
  }

  /** Over any run, completion is never undone, the lifecycle only moves
      forward, and at most one preloaderComplete event is ever dispatched,
      after the fade-out and the body unmarking. */
  lemma {:induction false} RunLifecycle(s: State, es: seq<Event>)
    requires Valid(s)
    ensures s.isComplete ==> Run(s, es).isComplete
    ensures Rank(s.phase) <= Rank(Run(s, es).phase)
    ensures Run(s, es).completeEvents <= 1
    ensures Run(s, es).completeEvents == 1 ==>
      !Run(s, es).bodyLoading && Run(s, es).fadeOut == s.els.preloader && !Run(s, es).inDom
    decreases |es|
  {
    if |es| > 0 {
      StepFacts(s, es[0]);
      RunLifecycle(Step(s, es[0]), es[1..]);
    }
  }

  /** Requesting completion again, however often, changes nothing about
      the lifecycle once it has begun. */
  lemma {:induction false} RepeatedCompletion(s: State, n: nat)
    requires Valid(s) && s.isComplete
    ensures Run(s, seq(n, _ => ForceCompleteCalled)).phase == s.phase
    ensures Run(s, seq(n, _ => ForceCompleteCalled)).completeEvents == s.completeEvents
    decreases n
  {
    if n > 0 {
      var es := seq(n, _ => ForceCompleteCalled);
      assert es[1..] == seq(n - 1, _ => ForceCompleteCalled);
      RepeatedCompletion(Step(s, ForceCompleteCalled), n - 1);
    }
  }

  /** The completion timers fire strictly in order: fade-out and unmarking
      first, then detach and exactly one dispatch. */
  lemma TeardownInOrder(s: State)
    requires Valid(s) && s.phase == Complete
    ensures Step(s, RemoveTimerFired) == s
    ensures var f := Step(s, FadeTimerFired);
      && f.phase == FadedOut && !f.bodyLoading && f.fadeOut == s.els.preloader
      && f.completeEvents == 0 && f.inDom == s.els.preloader
    ensures var g := Step(Step(s, FadeTimerFired), RemoveTimerFired);
      && g.phase == Removed && g.completeEvents == 1 && !g.inDom && !g.bodyLoading
  {
  }

  /** The watchdog only acts before completion; afterwards it is inert
      apart from consuming its timer. */
  lemma WatchdogOnlyBeforeCompletion(s: State)
    requires s.watchdogPending
    ensures s.isComplete ==> Step(s, WatchdogFired) == s.(watchdogPending := false)
    ensures !s.isComplete ==> Step(s, WatchdogFired).progress == 100.0
  {
  }
}

=== FILE: options.dfy ===
/** A small optional-value datatype, used for display sinks that the
    controller may or may not have written yet and for lookups that can miss. */
module Options {

  datatype Option<+T> = None | Some(value: T)
}

=== FILE: stages.dfy ===
/** The static stage table of the preloader and the lookup that picks the
    status label for a progress value (preloader.js, constructor and
    updateProgress). */
module Stages {
  import opened Options

  /** A labelled, inclusive sub-range [lo, hi] of the 0..100 progress scale. */
  datatype Stage = Stage(text: string, lo: real, hi: real)

  predicate Contains(st: Stage, p: real) {
    st.lo <= p <= st.hi
  }

  /** The table in its declaration order. Neighbouring ranges share their
      boundary value. */
  const LoadingStages: seq<Stage> := [
    Stage("Initializing...", 0.0, 15.0),
    Stage("Loading assets...", 15.0, 40.0),
    Stage("Connecting to server...", 40.0, 60.0),
    Stage("Preparing interface...", 60.0, 80.0),
    Stage("Finalizing...", 80.0, 95.0),
    Stage("Almost ready...", 95.0, 100.0)
  ]

  /** Index of the first stage, in table order, whose range contains p
      (the semantics of Array.prototype.find), or None when none does. */
  function Find(stages: seq<Stage>, p: real): (r: Option<nat>)
    ensures r.Some? ==> r.value < |stages| && Contains(stages[r.value], p)
    ensures r.Some? ==> forall j :: 0 <= j < r.value ==> !Contains(stages[j], p)
    ensures r.None? <==> forall j :: 0 <= j < |stages| ==> !Contains(stages[j], p)
  {
    if |stages| == 0 then None
    else if Contains(stages[0], p) then Some(0)
    else match Find(stages[1..], p)
      case None => None
      case Some(i) => Some(i + 1)
  }

  /** The status label the tick shows for p, if any stage matches. */
  function StageText(p: real): (r: Option<string>)
    ensures r.Some? <==> 0.0 <= p <= 100.0
    ensures 0.0 <= p <= 100.0 ==> r == Some(LoadingStages[BandIndex(p)].text)
  {
    FindIsBand(p);
    match Find(LoadingStages, p)
    case None => None
    case Some(i) => Some(LoadingStages[i].text)
  }

  /** Independent reference: the band of p written out as a cascade of
      upper bounds, where each shared boundary belongs to the lower band. */
  function BandIndex(p: real): (k: nat)
    requires 0.0 <= p <= 100.0
    ensures k < |LoadingStages|
  {
    if p <= 15.0 then 0
    else if p <= 40.0 then 1
    else if p <= 60.0 then 2
    else if p <= 80.0 then 3
    else if p <= 95.0 then 4
    else 5
  }

  /** The first-match lookup over the table agrees with the band cascade on
      the whole 0..100 scale, and finds nothing outside it. */
  lemma FindIsBand(p: real)
    ensures 0.0 <= p <= 100.0 ==> Find(LoadingStages, p) == Some(BandIndex(p))
    ensures !(0.0 <= p <= 100.0) ==> Find(LoadingStages, p) == None
  {
    var r := Find(LoadingStages, p);
    if 0.0 <= p <= 100.0 {
      var k := BandIndex(p);
      assert Contains(LoadingStages[k], p);
      assert forall j :: 0 <= j < k ==> !Contains(LoadingStages[j], p);
    } else {
      assert forall j :: 0 <= j < |LoadingStages| ==> !Contains(LoadingStages[j], p);
    }
  }

  /** Every shared boundary value (15, 40, 60, 80, 95) selects the earlier of
      the two stages that contain it. */
  lemma SharedBoundaryPicksEarlier(k: nat)
    requires k + 1 < |LoadingStages|
    ensures LoadingStages[k].hi == LoadingStages[k + 1].lo
    ensures Contains(LoadingStages[k + 1], LoadingStages[k].hi)
    ensures Find(LoadingStages, LoadingStages[k].hi) == Some(k)
  {
    FindIsBand(LoadingStages[k].hi);
  }

  /** The two boundary examples: 15 reads "Initializing..." and 100 reads
      "Almost ready...". */
  lemma BoundaryExamples()
    ensures StageText(15.0) == Some("Initializing...")
    ensures StageText(100.0) == Some("Almost ready...")
  {
    FindIsBand(15.0);
    FindIsBand(100.0);
  }

  /** Stage selection never moves back down the table as progress grows. */
  lemma StageMonotone(p: real, q: real)
    requires 0.0 <= p <= q <= 100.0
    ensures Find(LoadingStages, p).Some? && Find(LoadingStages, q).Some?
    ensures Find(LoadingStages, p).value <= Find(LoadingStages, q).value
  {
    FindIsBand(p);
    FindIsBand(q);
  }
}

=== FILE: tickloop.dfy ===
/** Termination of the self-rescheduling updateProgress loop: every
    non-terminal tick adds at least 0.1, so the loop reaches its terminal
    tick after a bounded number of firings whatever the random draws. */
module TickLoop {
  import opened Controller
  import opened Stages

  predicate Draws(rs: seq<real>) {
    forall i :: 0 <= i < |rs| ==> 0.0 <= rs[i] < 1.0
  }

  /** Fires the pending tick once per draw, for as long as a tick is still
      scheduled. */
  function RunTicks(s: State, rs: seq<real>): (t: State)
    requires Draws(rs)
    ensures Valid(s) ==> Valid(t)
    ensures t.progress >= s.progress
    decreases |rs|
  {
    if |rs| == 0 || !s.tickPending then s
    else RunTicks(Tick(s, rs[0]), rs[1..])
  }

  /** Two consecutive non-terminal ticks show stages in table order: the
      status label never moves back to an earlier stage. */
  lemma StagesInOrder(s: State, r: real)
    requires Valid(s) && 0.0 <= r < 1.0
    requires !TickIsTerminal(s) && !TickIsTerminal(Tick(s, r))
    ensures BandIndex(s.progress) <= BandIndex(Tick(s, r).progress)
  {
    Stages.StageMonotone(s.progress, Tick(s, r).progress);
    Stages.FindIsBand(s.progress);
    Stages.FindIsBand(Tick(s, r).progress);
  }

  /** With n + 1 draws left and progress within n tenths of 100, the loop
      has stopped and completion has begun. */
  lemma {:induction false} StopsWithin(s: State, rs: seq<real>, n: nat)
    requires Draws(rs)
    requires |rs| >= n + 1
    requires s.progress + (n as real) / 10.0 >= 100.0
    ensures s.tickPending ==> !RunTicks(s, rs).tickPending && RunTicks(s, rs).isComplete
    decreases n
  {
    if s.tickPending {
      var t := Tick(s, rs[0]);
      if TickIsTerminal(s) {
        assert RunTicks(s, rs) == RunTicks(t, rs[1..]);
        assert !t.tickPending;
      } else {
        assert n > 0;
        assert t.progress + ((n - 1) as real) / 10.0 >= 100.0;
        StopsWithin(t, rs[1..], n - 1);
      }
    }
  }

  /** From any non-negative progress, 1001 firings are enough: at most 1000
      non-terminal ticks, then the terminal one. */
  lemma LoopTerminates(s: State, rs: seq<real>)
    requires Draws(rs) && |rs| >= 1001
    requires s.progress >= 0.0 && s.tickPending
    ensures !RunTicks(s, rs).tickPending && RunTicks(s, rs).isComplete
  {
    StopsWithin(s, rs, 1000);
  }
}

=== FILE: typewriter.dfy ===
/** The counter behind the "Loading" typewriter effect (preloader.js,
    setupTypewriter): a cyclic index that writes ever longer prefixes of the
    word, then spends one firing resetting to zero. */
module Typewriter {
  import opened Options

  const Word: string := "Loading"

  /** The closure state of typeEffect: the index i, and what the loading-text
      element currently shows (None until the first write). */
  datatype Typer = Typer(index: nat, shown: Option<string>)

  predicate Valid(t: Typer) {
    && t.index <= |Word| + 1
    && (t.shown.Some? ==> t.shown.value <= Word)
  }

  const Fresh: Typer := Typer(0, None)

  /** One firing of typeEffect. */
  function TypeStep(t: Typer): (t': Typer)
    ensures Valid(t) ==> Valid(t')
    ensures t.index <= |Word| ==> t'.index == t.index + 1 && t'.shown.Some? && |t'.shown.value| == t.index
    ensures t.index > |Word| ==> t'.index == 0 && t'.shown == t.shown
  {
    if t.index <= |Word| then Typer(t.index + 1, Some(Word[..t.index]))
    else Typer(0, t.shown)
  }

  /** n consecutive firings. */
  function Steps(t: Typer, n: nat): (t': Typer)
    ensures Valid(t) ==> Valid(t')
    decreases n
  {
    if n == 0 then t else Steps(TypeStep(t), n - 1)
  }

  /** From index i, n firings that stay within the word write the prefix of
      length i + n - 1 and leave the index at i + n. */
  lemma {:induction false} Typing(t: Typer, n: nat)
    requires 0 < n && t.index + n <= |Word| + 1
    ensures Steps(t, n) == Typer(t.index + n, Some(Word[..t.index + n - 1]))
    decreases n
  {
    if n > 1 {
      Typing(TypeStep(t), n - 1);
    }
  }

  /** The effect is periodic: |Word| + 2 firings from index 0 bring the index
      back to 0 with the whole word on display. */
  lemma FullCycle(t: Typer)
    requires t.index == 0
    ensures Steps(t, |Word| + 2) == Typer(0, Some(Word))
  {
    Typing(t, |Word| + 1);
    StepsSplit(t, |Word| + 1, 1);
    assert Word[..|Word|] == Word;
    assert Steps(Steps(t, |Word| + 1), 1) == TypeStep(Steps(t, |Word| + 1));
  }

  lemma {:induction false} StepsSplit(t: Typer, m: nat, n: nat)
    ensures Steps(t, m + n) == Steps(Steps(t, m), n)
    decreases m
  {
    if m > 0 {
      StepsSplit(TypeStep(t), m - 1, n);
    }
  }
}
